=== FILE: README.md ===
# rating-bot dialog logic in Dafny

A model of the turn-by-turn decision logic of the rating bot, a code hook
for an Amazon Lex bot that collects ratings (a 1–5 score) and free-text
feedback about conference sessions. Each call receives one turn event
(intent name, slots, invocation source, session attributes). The bot
answers with one of four dialog actions:
- ElicitSlot: re-prompt for one slot.
- Delegate: hand slot collection back to Lex.
- Close: finish the dialog.
- ConfirmIntent: supported but unused.

The model has these parts:

- `Validators` (validators.dfy): the single-value checks. They cover the
  case-insensitive city allow-list, the score range, date readability, the
  future-date and 30-day checks, the comments length and the A/B/C test
  target.
- `Validation` (validation.dfy): the three rule chains `ValidateRating`,
  `ValidateFeedback` and `ValidateTesting`. Each is written the way the code
  nests its `if`s. Each is also proved equal to a declarative reference: the
  first failing check of an ordered list (`FirstFailure`). A rejection is a
  `Reason`; `MessageText` renders it as the exact user-facing text.
- `Responses` (responses.dfy): the response builders, the card builder
  `BuildResponseCard`, and `BuildOptions`, which follows Python's negative
  indexing.
- `Dialog` (dialog.dfy): the turn event, the slot map, the session
  attributes, and the records the bot writes.
  - A slot counts as filled only when it holds a non-empty string, as Python
    truthiness decides.
  - A missing slot key reads as absent.
- `Handlers` (handlers.dfy): `RateSession`, `ProvideFeedback`, `Testing`,
  `Thanks` and `CancelRequest`. Each slot-filling handler has two states:
  - On a DialogCodeHook turn it validates. If a slot is invalid it clears
    only that slot and re-elicits it. If all slots are valid it delegates
    with the slots unchanged.
  - On a FulfillmentCodeHook turn it removes the draft key, stores the
    confirmed record under `lastConfirmed*`, writes to the stream where the
    source does, and closes as Fulfilled.
- `Router` (router.dfy): `Dispatch` handles the five intent names and fails
  on any other name.
- `Scenarios` (scenarios.dfy): whole turns on concrete inputs.
- `Text` (text.dfy): ASCII `lower()` and `title()`, and decimal rendering of
  an integer.
- `Wrappers` (wrappers.dfy): `Option` and `Result`.

Whatever a turn learns from outside the process is a field of `Env`:
- `today`: today's day number.
- `parseDate`: the date reader (`dateutil`), returning `Unparseable` or
  `Day(n)`.
- `toNumber`: the score conversion `int(float(s))`, returning `None` where
  Python raises.
- `sentiment`: the sentiment service, returning `None` when the call fails.
- `streamAccepts`: whether the stream write succeeds.
- `pick`: the index `random.choice` draws.

A turn returns the response and the stream write it made, if any. It fails
with a `TurnError` where the source raises on the events the platform sends.

Some behaviour of the code is easy to misread:
- The draft key (`currentRating`, `currentFeedback`, `currentTest`) is written
  before the invocation source is looked at. So a fulfillment turn writes it
  and then removes it.
- The test flow re-prompts with the fixed text "Select an option or type
  another option" and a card offering A, B and C. The validation message,
  which quotes the rejected target, is dropped.
- The comments rejection does not quote the comments.
- The rating record written at fulfillment is the draft built at the start
  of the turn. Its score is not re-checked.

## Model

| member | source | states |
|---|---|---|
| Text.Lower | rating-bot.py:197 | `lower()` keeps the length and lower-cases each letter; every other character is kept |
| Text.TitleFrom | rating-bot.py:387 | `title()` upper-cases a letter that starts a run of letters and lower-cases letters inside a run |
| Text.Title | rating-bot.py:473 | title-casing keeps the length and changes only case, so the lower-case form is unchanged |
| Text.NatDigits | rating-bot.py:275 | a non-negative score prints as a non-empty run of digits with no leading zero |
| Text.Decimal | rating-bot.py:275 | a score prints with a leading '-' exactly when it is negative; a negative one is '-' followed by the digits of its magnitude, with no leading zero, and a non-negative one is digits only |
| Text.NatDigitsRoundTrip | rating-bot.py:275 | the digits of a natural number read back as that number |
| Text.DecimalRoundTrip | rating-bot.py:275 | the score as printed in the message reads back as the same integer, negative ones included |
| Validators.LocationIgnoresCase | rating-bot.py:192-197 | whether a location is valid depends only on its lower-case form |
| Validators.LondonInAnyCase | rating-bot.py:192-197 | "LONDON", "London" and "london" are all accepted |
| Validators.ParisRejected | rating-bot.py:192-197 | Paris, a city outside the twelve-entry list, is rejected |
| Validators.CommentsNeedFiveCharacters | rating-bot.py:217-221 | comments pass exactly when present and at least five characters long; absent comments fail |
| Validators.TestTargetIsCaseSensitive | rating-bot.py:345 | only "A", "B" and "C" are valid targets; "a" is not |
| Validators.ThirtyDayBoundary | rating-bot.py:208-214 | a date exactly 30 days ago fails the window and one 29 days ago passes; a date passes both range checks iff it lies in (today-30, today] |
| Validation.FirstFailure | rating-bot.py:250-292 | a chain is Valid iff no check fails; otherwise it reports the slot and reason of the earliest failing check |
| Validation.FirstFailureIsFirst | rating-bot.py:250-292 | when check i fails and every earlier check passes, check i is the one reported |
| Validation.ValidateRating | rating-bot.py:250-292 | Valid iff the location is valid or unfilled, the date is unfilled or a readable day in the window, and the score is absent or in 1..5. A rejection names the location, date or score slot. A location or date rejection names a filled slot; a score rejection needs a present, out-of-range score |
| Validation.RatingChainIsFirstFailure | rating-bot.py:257-290 | the rating chain reports the first failure among location, date readability, score, future date, 30-day window, in that order |
| Validation.RatingQuotesRejectedSlot | rating-bot.py:257-290 | a rating rejection's message opens with the rejected slot's text, or with the score as printed, and that text is non-empty |
| Validation.MessageQuotesValue | rating-bot.py:257-349 | every rejection message that quotes a value starts with it; the comments message quotes nothing |
| Validation.ValidateFeedback | rating-bot.py:295-339 | Valid iff the location and date are acceptable and, once id, location and date are all filled, the comments are valid. The comments failure is reported exactly when everything before it passes, those three slots are filled, and the comments are invalid |
| Validation.FeedbackChainIsFirstFailure | rating-bot.py:302-337 | the feedback chain reports the first failure among location, date readability, future date, 30-day window, comments, in that order |
| Validation.TestingChainIsFirstFailure | rating-bot.py:342-351 | the test chain reports its single check, an unknown target, exactly as the first-failure reference does |
| Validation.ValidateTesting | rating-bot.py:342-351 | Valid iff the target is unfilled or one of A, B, C. A rejection names the TestTarget slot and quotes its text |
| Validation.NothingFilledIsValid | rating-bot.py:250-351 | with location and date unfilled and no score the rating chain returns Valid, with location and date unfilled the feedback chain does, and with the target unfilled the test chain does |
| Validation.ZeroScoreRejected | rating-bot.py:271-276 | a score of 0 is checked, not skipped as falsy, and is the reported failure once location and date readability pass |
| Validation.StaleDateRejected | rating-bot.py:285-328 | once the location check passes, a readable date 30 or more days ago is rejected by the feedback chain, and by the rating chain when the score check passes too, each with its own 30-day message |
| Validation.FutureDateRejected | rating-bot.py:278-321 | once the location check passes, a readable date after today is rejected as future by the feedback chain, and by the rating chain when the score check passes too |
| Responses.BuildersRoundTrip | rating-bot.py:40-125 | each builder echoes its session attributes and produces its own dialog-action type. The elicit and confirm builders carry the intent name, both elicit builders carry the slot to elicit, and Close carries the fulfillment state. The slots and message read back from a response are the ones given. Only Close has no slots and only Delegate has no message. The card field exists only for the card variant |
| Responses.OptionButtons | rating-bot.py:70-74 | one button per option, in order, each with text and value equal to the option |
| Responses.BuildOptions | rating-bot.py:70-74 | one button per option from the start index on, each with text and value equal to the option. A negative start counts from the end, and a start before the list's beginning fails as an index error. A start inside the list gives `OptionButtons` of the options from there on |
| Responses.BuildResponseCard | rating-bot.py:77-86 | a generic card, version 1, with a single attachment whose buttons are `OptionButtons` of the options, which is what `BuildOptions` builds from index 0 |
| Responses.CardValuesRoundTrip | rating-bot.py:77-86 | reading the button values back off a built card gives the options |
| Dialog.Clear | rating-bot.py:401 | clearing the violated slot sets it to None and keeps every other slot |
| Handlers.NullAttributesStartEmpty | rating-bot.py:468-548 | null session attributes read as an empty mapping. Thanks and cancel then answer with no attributes. A rating dialog turn answers with only its draft under currentRating, and an accepted fulfillment with only the record under lastConfirmedRating |
| Handlers.Choose | rating-bot.py:539 | the reply drawn is always a member of its pool |
| Handlers.ChooseReachesAll | rating-bot.py:532-558 | every reply in a pool can be drawn |
| Handlers.RateSession | rating-bot.py:455-522 | an unconvertible score ends the turn. A dialog turn stashes the draft, re-elicits only the first invalid slot and clears just that slot, or delegates with the slots unchanged; other attributes are echoed. A fulfillment turn writes the draft once to the stream, replaces currentRating with lastConfirmedRating, echoes the rest and closes with the rating thanks. A refused stream write fails the turn |
| Handlers.ProvideFeedback | rating-bot.py:357-452 | a dialog turn behaves like the rating one but with the feedback chain. A fulfillment turn fails when the sentiment call fails, and then nothing is written. Otherwise the draft plus its sentiment is written once and filed as lastConfirmedFeedback, and the dialog closes with the feedback thanks |
| Handlers.Testing | rating-bot.py:563-626 | an invalid target is cleared and re-elicited with the fixed prompt and the A/B/C card. A valid one delegates. Fulfillment files lastConfirmedTest and closes with a message quoting the target, or "None"; nothing is written to the stream |
| Handlers.TestCardOffersValidTargets | rating-bot.py:599-606 | the card offers exactly A, B, C, and filling the slot from any button passes the test chain |
| Handlers.Thanks | rating-bot.py:525-541 | closes as Fulfilled with a reply from the thanks pool, attributes echoed, nothing written |
| Handlers.CancelRequest | rating-bot.py:544-560 | closes as Fulfilled with a reply from the cancel pool, attributes echoed, nothing written |
| Router.Dispatch | rating-bot.py:631-652 | an unknown-intent failure happens exactly when the name is not one of the five; each known name runs its own handler |
| Scenarios.ScoreSevenMessage | rating-bot.py:275 | the message for score 7 is "7 is not a valid session score.  Please enter a score between 1 and 5" |
| Scenarios.ScoreSevenInvalid | rating-bot.py:257-276 | with London, a readable date of today and score 7, the rating chain rejects the score slot with reason ScoreOutOfRange(7) |
| Scenarios.ScoreSevenReElicited | rating-bot.py:481-494 | London, today and score "7" re-elicit SessionScore with that message; only the score slot is cleared |
| Scenarios.TitleExamples | rating-bot.py:473-476 | `title()` turns "london" into "London" and "abc" into "Abc" |
| Scenarios.RatingFulfilled | rating-bot.py:462-522 | a complete rating is written once with location "London" and id "Abc", and the dialog closes with "Thank you for rating this session." |
| Scenarios.ShortCommentsFlagged | rating-bot.py:330-337 | "ok" as comments, with id, location and date filled, is flagged under SessionComments |
| Scenarios.UnknownIntentFails | rating-bot.py:652 | the intent "Unknown" fails with an error that names it |

## Left out

- Remote calls are parameters of `Env`, not modelled services. This covers
  the sentiment request (rating-bot.py:238-247) and the stream `put_record`
  calls. The per-label sentiment scores the service returns are dropped
  before the record is built, and the model keeps only the label and its
  confidence. The stream name comes from the environment and is not
  modelled; the partition key is.
- Date parsing (`dateutil.parser.parse`) is `Env.parseDate`. Its parser
  errors other than `ValueError` (such as `OverflowError` on an oversized
  number), which `isvalid_date` does not catch and which end the turn, are
  folded into `Unparseable` or `Day`. "Today" is
  `Env.today` as a day number. The process time zone set in the entry point
  only affects what "today" is.
- `safe_int`'s `int(float(s))` is `Env.toNumber`. Float conversion is not
  modelled; `None` stands for the exception it raises, which fails the
  turn.
- `json.dumps` serialisation becomes the `Record` datatype stored in the
  session attributes and on the stream. The JSON text itself is not
  modelled.
- `random.choice` is `Env.pick`, reduced modulo the pool size.
- Process wiring is left out: environment variables, the time-zone setting,
  logging, X-Ray patching and `lambda_handler`.
- `get_day_difference` and `add_days` are unused by the bot and are not
  modelled.
- `try_ex` and `safe_attribute` become the total lookups `Get` and
  `Titled`.
- `confirmationStatus` is read but never used, so it is not part of
  `TurnEvent`. A missing `confirmationStatus` or `sessionAttributes` key,
  on which the source raises `KeyError`, is not modelled; a present but
  null `sessionAttributes` is. A missing `userId` is not modelled either: the logging line
  in `dispatch` would raise on it before routing, and Lex always sends one.
- The invocation source has two values. The source treats any value other
  than DialogCodeHook as fulfillment.
- Text.Lower: models `str.lower()` for ASCII letters only. Non-ASCII case
  mappings, such as the Kelvin sign lower-casing to "k", are not modelled.
- Text.TitleFrom: models `str.title()` for ASCII letters only. A non-ASCII letter counts as
  uncased, so it neither starts nor continues a run of letters.
- Text.Title: models `str.title()` for ASCII letters only. Non-ASCII letters
  count as uncased and are left as they are.

=== FILE: dialog.dfy ===
/** What one turn of the dialog platform hands the bot, what the bot may
    write into the session, and the collaborators a turn depends on. */
module Dialog {
  import opened Wrappers
  import opened Validators

  /** Slot name to slot value; a key may be missing, or present with None. */
  type Slots = map<string, Option<string>>

  const SessionIdSlot: string := "SessionID"
  const SessionDateSlot: string := "SessionDate"
  const SessionLocationSlot: string := "SessionLocation"
  const SessionScoreSlot: string := "SessionScore"
  const SessionCommentsSlot: string := "SessionComments"
  const TestTargetSlot: string := "TestTarget"

  /** Defensive slot lookup: a missing key reads as None. */
  function Get(slots: Slots, name: string): Option<string> {
    if name in slots then slots[name] else None
  }

  /** The text of a slot, with an absent slot read as the empty string. */
  function SlotText(slots: Slots, name: string): string {
    match Get(slots, name)
    case Some(s) => s
    case None => ""
  }

  /** A slot is filled when it holds a non-empty string (Python truthiness). */
  predicate Filled(slots: Slots, name: string) {
    SlotText(slots, name) != ""
  }

  /** The slot map after `slots[name] = None`: that slot is cleared, every
      other slot is kept. */
  function Clear(slots: Slots, name: string): (r: Slots)
    ensures r.Keys == slots.Keys + {name}
    ensures Get(r, name) == None
    ensures forall k :: k != name ==> Get(r, k) == Get(slots, k)
  {
    slots[name := None]
  }

  datatype InvocationSource = DialogCodeHook | FulfillmentCodeHook

  /** The overall sentiment and its confidence kept from a sentiment analysis. */
  datatype Sentiment = Sentiment(polarity: string, confidence: real)

  /** The records the bot serialises into session attributes and the stream. */
  datatype Record =
    | SessionRating(userId: string, location: Option<string>, date: Option<string>,
                    score: Option<int>, id: Option<string>)
    | SessionFeedback(userId: string, location: Option<string>, date: Option<string>,
                      comments: Option<string>, sentiment: Option<Sentiment>, id: Option<string>)
    | TestSelection(target: Option<string>)

  /** A session attribute value: opaque text, or a record the bot wrote. */
  datatype AttrValue = Text(text: string) | Json(record: Record)

  type Attributes = map<string, AttrValue>

  const CurrentRatingKey: string := "currentRating"
  const LastConfirmedRatingKey: string := "lastConfirmedRating"
  const CurrentFeedbackKey: string := "currentFeedback"
  const LastConfirmedFeedbackKey: string := "lastConfirmedFeedback"
  const CurrentTestKey: string := "currentTest"
  const LastConfirmedTestKey: string := "lastConfirmedTest"

  datatype TurnEvent = TurnEvent(
    userId: string,
    invocationSource: InvocationSource,
    sessionAttributes: Option<Attributes>,
    intentName: string,
    slots: Slots)

  /** The session attributes of an event; a null mapping reads as empty. */
  function AttributesOf(ev: TurnEvent): Attributes
  {
    if ev.sessionAttributes.Some? then ev.sessionAttributes.value else map[]
  }

  /** Everything a turn learns from outside the process: today's day
      number, the date reader, the numeric conversion of the score text, the
      sentiment service (None when the call fails), whether the stream
      accepts a write, and the index `random.choice` draws. */
  datatype Env = Env(
    today: int,
    parseDate: string -> ParsedDate,
    toNumber: string -> Option<int>,
    sentiment: string -> Option<Sentiment>,
    streamAccepts: bool,
    pick: nat)

  /** Why a turn fails instead of answering. */
  datatype TurnError =
    | UnknownIntent(intentName: string)
    | ScoreNotNumeric(text: string)
    | SentimentFailed
    | StreamRejected
}

=== FILE: handlers.dfy ===
/** The intent handlers. The three slot-filling intents run in two states:
    on a DialogCodeHook turn they validate and either re-prompt for the
    first bad slot or delegate; on a FulfillmentCodeHook turn they write the
    finished record (rating and feedback also to the stream) and close.
    Thanks and cancel close at once with a reply drawn from a fixed pool. */
module Handlers {
  import opened Wrappers
  import opened Text
  import opened Validators
  import opened Dialog
  import opened Validation
  import opened Responses

  /** One `put_record` call on the stream. */
  datatype StreamWrite = StreamWrite(partitionKey: string, data: Record)

  /** What a turn returns to the platform and what it wrote to the stream. */
  datatype Turn = Turn(response: TurnResponse, written: Option<StreamWrite>)

  const PartitionKey: string := "partitionKey"

  const RatingThanks: string := "Thank you for rating this session."
  const FeedbackThanks: string := "Thank you for providing feedback on this session."
  const TestPrompt: string := "Select an option or type another option"

  const ThanksReplies: seq<string> := [
    "No problem!", "You are very welcome.", "Happy to help.", "That's fine.", "No. Thank you.", "Any time."]

  const CancelReplies: seq<string> := [
    "No problem. Let me know if I can help with anything else.",
    "Let me know if you need anything else in future.",
    "OK. Chat to you again soon."]

  /** `random.choice(pool)` with the draw supplied as `pick`. */
  function Choose(pool: seq<string>, pick: nat): (r: string)
    requires |pool| > 0
    ensures r in pool
  {
    pool[pick % |pool|]
  }

  /** Every reply in the pool can be the one chosen. */
  lemma ChooseReachesAll(pool: seq<string>, reply: string)
    requires reply in pool
    ensures exists pick: nat :: Choose(pool, pick) == reply
  {
    var i :| 0 <= i < |pool| && pool[i] == reply;
    assert Choose(pool, i) == reply;
  }

  /** `safe_int` on the score slot: None stays None; text the conversion
      rejects ends the turn. */
  function ScoreOf(slots: Slots, toNumber: string -> Option<int>): Result<Option<int>, TurnError> {
    match Get(slots, SessionScoreSlot)
    case None => Success(None)
    case Some(text) =>
      match toNumber(text)
      case None => Failure(ScoreNotNumeric(text))
      case Some(n) => Success(Some(n))
  }

  /** `.title()` applied to an optional value, None when the slot is absent. */
  function Titled(value: Option<string>): Option<string> {
    match value
    case None => None
    case Some(s) => Some(Title(s))
  }

  function RatingDraft(ev: TurnEvent, score: Option<int>): Record {
    SessionRating(ev.userId, Titled(Get(ev.slots, SessionLocationSlot)), Get(ev.slots, SessionDateSlot),
                  score, Titled(Get(ev.slots, SessionIdSlot)))
  }

  function FeedbackDraft(ev: TurnEvent): Record {
    SessionFeedback(ev.userId, Titled(Get(ev.slots, SessionLocationSlot)), Get(ev.slots, SessionDateSlot),
                    Get(ev.slots, SessionCommentsSlot), None, Titled(Get(ev.slots, SessionIdSlot)))
  }

  /** Every key outside `changed` is present in `after` exactly when it is
      in `before`, with the same value. */
  ghost predicate EchoedExcept(before: Attributes, after: Attributes, changed: set<string>) {
    forall k :: k !in changed ==> (k in after <==> k in before) && (k in after ==> after[k] == before[k])
  }

  /** `after` is `before` with only `slot` cleared. */
  ghost predicate ClearsOnly(before: Slots, after: Slots, slot: string) {
    && after.Keys == before.Keys + {slot}
    && Get(after, slot) == None
    && forall k :: k != slot ==> Get(after, k) == Get(before, k)
  }

  /** A DialogCodeHook answer: the draft is stashed under `draftKey` and the
      other attributes are echoed; an invalid slot is cleared and re-elicited
      with the rejection message (or the fixed `prompt`) and `card`; a valid
      turn delegates with the slots untouched. Nothing goes to the stream. */
  ghost predicate AnswersDialog(ev: TurnEvent, t: Turn, draftKey: string, draft: Record,
                                v: ValidationResult, prompt: Option<string>, card: Option<ResponseCard>)
  {
    && t.written.None?
    && draftKey in t.response.sessionAttributes
    && t.response.sessionAttributes[draftKey] == Json(draft)
    && EchoedExcept(AttributesOf(ev), t.response.sessionAttributes, {draftKey})
    && match v
       case Valid => t.response.dialogAction == Delegate(ev.slots)
       case Invalid(slot, reason) =>
         && t.response.dialogAction.ElicitSlot?
         && t.response.dialogAction.intentName == ev.intentName
         && t.response.dialogAction.slotToElicit == slot
         && ClearsOnly(ev.slots, t.response.dialogAction.slots, slot)
         && t.response.dialogAction.message
            == PlainText(if prompt.Some? then prompt.value else MessageText(reason))
         && t.response.dialogAction.responseCard == card
  }

  /** A fulfilment answer: the draft key is gone, the confirmed record sits
      under `lastKey`, every other attribute is echoed, and the dialog closes
      as fulfilled with `text`. */
  ghost predicate Fulfils(ev: TurnEvent, t: Turn, draftKey: string, lastKey: string, record: Record, text: string)
  {
    && draftKey !in t.response.sessionAttributes
    && lastKey in t.response.sessionAttributes
    && t.response.sessionAttributes[lastKey] == Json(record)
    && EchoedExcept(AttributesOf(ev), t.response.sessionAttributes, {draftKey, lastKey})
    && t.response.dialogAction == Close(Fulfilled, PlainText(text))
  }

  /** Removes the draft and files the confirmed record. */
  function Confirm(attrs: Attributes, draftKey: string, lastKey: string, record: Record): Attributes {
    (attrs - {draftKey})[lastKey := Json(record)]
  }

  /** `rate_session`. */
  function RateSession(ev: TurnEvent, env: Env): (r: Result<Turn, TurnError>)
    ensures ScoreOf(ev.slots, env.toNumber).Failure? ==> r == Failure(ScoreOf(ev.slots, env.toNumber).error)
    ensures ScoreOf(ev.slots, env.toNumber).Success? && ev.invocationSource == DialogCodeHook ==>
      var score := ScoreOf(ev.slots, env.toNumber).value;
      r.Success? && AnswersDialog(ev, r.value, CurrentRatingKey, RatingDraft(ev, score),
                                  ValidateRating(ev.slots, score, env.parseDate, env.today), None, None)
    ensures ScoreOf(ev.slots, env.toNumber).Success? && ev.invocationSource == FulfillmentCodeHook ==>
      var score := ScoreOf(ev.slots, env.toNumber).value;
      && (r.Success? <==> env.streamAccepts)
      && (r.Failure? ==> r.error == StreamRejected)
      && (r.Success? ==>
            && r.value.written == Some(StreamWrite(PartitionKey, RatingDraft(ev, score)))
            && Fulfils(ev, r.value, CurrentRatingKey, LastConfirmedRatingKey, RatingDraft(ev, score), RatingThanks))
  {
    match ScoreOf(ev.slots, env.toNumber)
    case Failure(e) => Failure(e)
    case Success(score) =>
      var rating := RatingDraft(ev, score);
      var attrs := AttributesOf(ev)[CurrentRatingKey := Json(rating)];
      match ev.invocationSource
      case DialogCodeHook =>
        (match ValidateRating(ev.slots, score, env.parseDate, env.today)
         case Invalid(slot, reason) =>
           Success(Turn(BuildElicitSlot(attrs, ev.intentName, Clear(ev.slots, slot), slot,
                                        PlainText(MessageText(reason))), None))
         case Valid =>
           Success(Turn(BuildDelegate(attrs, ev.slots), None)))
      case FulfillmentCodeHook =>
        if !env.streamAccepts then Failure(StreamRejected)
        else
          Success(Turn(BuildClose(Confirm(attrs, CurrentRatingKey, LastConfirmedRatingKey, rating),
                                  Fulfilled, PlainText(RatingThanks)),
                       Some(StreamWrite(PartitionKey, rating))))
  }

  /** The sentiment of the comments; absent comments fail like a refused
      service call. */
  function SentimentOf(comments: Option<string>, env: Env): Option<Sentiment> {
    match comments
    case None => None
    case Some(text) => env.sentiment(text)
  }

  /** `provide_feedback`. */
  function ProvideFeedback(ev: TurnEvent, env: Env): (r: Result<Turn, TurnError>)
    ensures ev.invocationSource == DialogCodeHook ==>
      r.Success? && AnswersDialog(ev, r.value, CurrentFeedbackKey, FeedbackDraft(ev),
                                  ValidateFeedback(ev.slots, env.parseDate, env.today), None, None)
    ensures ev.invocationSource == FulfillmentCodeHook ==>
      var sentiment := SentimentOf(Get(ev.slots, SessionCommentsSlot), env);
      && (r.Success? <==> sentiment.Some? && env.streamAccepts)
      && (sentiment.None? ==> r == Failure(SentimentFailed))
      && (sentiment.Some? && !env.streamAccepts ==> r == Failure(StreamRejected))
      && (r.Success? ==>
            var record := FeedbackDraft(ev).(sentiment := sentiment);
            && r.value.written == Some(StreamWrite(PartitionKey, record))
            && Fulfils(ev, r.value, CurrentFeedbackKey, LastConfirmedFeedbackKey, record, FeedbackThanks))
  {
    var draft := FeedbackDraft(ev);
    var attrs := AttributesOf(ev)[CurrentFeedbackKey := Json(draft)];
    match ev.invocationSource
    case DialogCodeHook =>
      (match ValidateFeedback(ev.slots, env.parseDate, env.today)
       case Invalid(slot, reason) =>
         Success(Turn(BuildElicitSlot(attrs, ev.intentName, Clear(ev.slots, slot), slot,
                                      PlainText(MessageText(reason))), None))
       case Valid =>
         Success(Turn(BuildDelegate(attrs, ev.slots), None)))
    case FulfillmentCodeHook =>
      match SentimentOf(Get(ev.slots, SessionCommentsSlot), env)
      case None => Failure(SentimentFailed)
      case Some(sentiment) =>
        var feedback := draft.(sentiment := Some(sentiment));
        if !env.streamAccepts then Failure(StreamRejected)
        else
          Success(Turn(BuildClose(Confirm(attrs, CurrentFeedbackKey, LastConfirmedFeedbackKey, feedback),
                                  Fulfilled, PlainText(FeedbackThanks)),
                       Some(StreamWrite(PartitionKey, feedback))))
  }

  /** The card offered when the test target is re-elicited. */
  function TestCard(): ResponseCard {
    BuildResponseCard("title", "subtitle", TestTargets)
  }

  /** Python's `'{}'.format(value)` for an optional string. */
  function FormatOptional(value: Option<string>): string {
    match value
    case None => "None"
    case Some(s) => s
  }

  /** `testing`. */
  function Testing(ev: TurnEvent, env: Env): (r: Turn)
    ensures ev.invocationSource == DialogCodeHook ==>
      AnswersDialog(ev, r, CurrentTestKey, TestSelection(Get(ev.slots, TestTargetSlot)),
                    ValidateTesting(ev.slots), Some(TestPrompt), Some(TestCard()))
    ensures ev.invocationSource == FulfillmentCodeHook ==>
      && r.written.None?
      && Fulfils(ev, r, CurrentTestKey, LastConfirmedTestKey, TestSelection(Get(ev.slots, TestTargetSlot)),
                 "Fulfilling testing intent using with TestTarget: " + FormatOptional(Get(ev.slots, TestTargetSlot)))
  {
    var target := Get(ev.slots, TestTargetSlot);
    var selection := TestSelection(target);
    var attrs := AttributesOf(ev)[CurrentTestKey := Json(selection)];
    match ev.invocationSource
    case DialogCodeHook =>
      (match ValidateTesting(ev.slots)
       case Invalid(slot, _) =>
         Turn(BuildElicitSlotWithCard(attrs, ev.intentName, Clear(ev.slots, slot), slot, TestPrompt, TestCard()), None)
       case Valid =>
         Turn(BuildDelegate(attrs, ev.slots), None))
    case FulfillmentCodeHook =>
      Turn(BuildClose(Confirm(attrs, CurrentTestKey, LastConfirmedTestKey, selection), Fulfilled,
                      PlainText("Fulfilling testing intent using with TestTarget: " + FormatOptional(target))),
           None)
  }

  /** Every option on the test card is a target the chain accepts, so
      choosing any button settles the slot. */
  lemma TestCardOffersValidTargets(slots: Slots)
    ensures CardValues(TestCard()) == TestTargets
    ensures forall v :: v in CardValues(TestCard()) ==>
      IsValidTestTarget(v) && ValidateTesting(slots[TestTargetSlot := Some(v)]) == Valid
  {
  }

  /** `thanks`: close at once with a reply from the thanks pool. */
  function Thanks(ev: TurnEvent, env: Env): (r: Turn)
    ensures r.written.None?
    ensures r.response.sessionAttributes == AttributesOf(ev)
    ensures r.response.dialogAction.Close? && r.response.dialogAction.fulfillmentState == Fulfilled
    ensures r.response.dialogAction.message.content in ThanksReplies
  {
    Turn(BuildClose(AttributesOf(ev), Fulfilled, PlainText(Choose(ThanksReplies, env.pick))), None)
  }

  /** `cancel_request`: close at once with a reply from the cancel pool. */
  function CancelRequest(ev: TurnEvent, env: Env): (r: Turn)
    ensures r.written.None?
    ensures r.response.sessionAttributes == AttributesOf(ev)
    ensures r.response.dialogAction.Close? && r.response.dialogAction.fulfillmentState == Fulfilled
    ensures r.response.dialogAction.message.content in CancelReplies
  {
    Turn(BuildClose(AttributesOf(ev), Fulfilled, PlainText(Choose(CancelReplies, env.pick))), None)
  }

  /** A turn whose session attributes are null starts from an empty mapping:
      the closing intents answer with no attributes at all, and a rating
      turn answers with nothing but its draft (dialog) or its confirmed
      record (fulfillment). */
  lemma NullAttributesStartEmpty(ev: TurnEvent, env: Env)
    requires ev.sessionAttributes.None?
    ensures Thanks(ev, env).response.sessionAttributes == map[]
    ensures CancelRequest(ev, env).response.sessionAttributes == map[]
    ensures ScoreOf(ev.slots, env.toNumber).Success? && ev.invocationSource == DialogCodeHook ==>
      var r := RateSession(ev, env);
      r.Success? && r.value.response.sessionAttributes
                    == map[CurrentRatingKey := Json(RatingDraft(ev, ScoreOf(ev.slots, env.toNumber).value))]
    ensures ScoreOf(ev.slots, env.toNumber).Success? && ev.invocationSource == FulfillmentCodeHook
            && env.streamAccepts ==>
      var r := RateSession(ev, env);
      r.Success? && r.value.response.sessionAttributes
                    == map[LastConfirmedRatingKey := Json(RatingDraft(ev, ScoreOf(ev.slots, env.toNumber).value))]
  {
  }
}

=== FILE: responses.dfy ===
/** The four turn outcomes the bot returns to the dialog platform, the
    builders that construct them, and the multiple-choice card that can be
    attached to a re-prompt. */
module Responses {
  import opened Wrappers
  import opened Dialog

  datatype Message = PlainText(content: string)

  datatype Button = Button(text: string, value: string)

  datatype Attachment = Attachment(title: string, subTitle: string, buttons: seq<Button>)

  datatype ResponseCard = ResponseCard(contentType: string, version: int, attachments: seq<Attachment>)

  const GenericCardType: string := "application/vnd.amazonaws.card.generic"

  const Fulfilled: string := "Fulfilled"

  /** The `dialogAction` of a response; each variant is named after the
      `type` field it carries. `responseCard` is None when the response has
      no card field at all. */
  datatype DialogAction =
    | ElicitSlot(intentName: string, slots: Slots, slotToElicit: string, message: Message,
                 responseCard: Option<ResponseCard>)
    | ConfirmIntent(intentName: string, slots: Slots, message: Message)
    | Close(fulfillmentState: string, message: Message)
    | Delegate(slots: Slots)

  datatype TurnResponse = TurnResponse(sessionAttributes: Attributes, dialogAction: DialogAction)

  function BuildElicitSlot(attrs: Attributes, intentName: string, slots: Slots,
                           slotToElicit: string, message: Message): TurnResponse
  {
    TurnResponse(attrs, ElicitSlot(intentName, slots, slotToElicit, message, None))
  }

  /** Unlike `BuildElicitSlot`, takes bare text and wraps it as plain text. */
  function BuildElicitSlotWithCard(attrs: Attributes, intentName: string, slots: Slots,
                                   slotToElicit: string, message: string,
                                   card: ResponseCard): TurnResponse
  {
    TurnResponse(attrs, ElicitSlot(intentName, slots, slotToElicit, PlainText(message), Some(card)))
  }

  function BuildConfirmIntent(attrs: Attributes, intentName: string, slots: Slots,
                              message: Message): TurnResponse
  {
    TurnResponse(attrs, ConfirmIntent(intentName, slots, message))
  }

  function BuildClose(attrs: Attributes, fulfillmentState: string, message: Message): TurnResponse
  {
    TurnResponse(attrs, Close(fulfillmentState, message))
  }

  function BuildDelegate(attrs: Attributes, slots: Slots): TurnResponse
  {
    TurnResponse(attrs, Delegate(slots))
  }

  /** The slot map a response hands back, if its shape has a `slots` field. */
  function SlotsOf(r: TurnResponse): Option<Slots> {
    match r.dialogAction
    case ElicitSlot(_, slots, _, _, _) => Some(slots)
    case ConfirmIntent(_, slots, _) => Some(slots)
    case Close(_, _) => None
    case Delegate(slots) => Some(slots)
  }

  /** The text shown to the user, if the response carries a message. */
  function ContentOf(r: TurnResponse): Option<string> {
    match r.dialogAction
    case ElicitSlot(_, _, _, message, _) => Some(message.content)
    case ConfirmIntent(_, _, message) => Some(message.content)
    case Close(_, message) => Some(message.content)
    case Delegate(_) => None
  }

  /** Every builder echoes the session attributes it is given and carries
      the intent name, slot to elicit and fulfillment state it is handed; the
      slot map and the message read back from its response are the ones it
      was given, and only a Close response carries no slots and only a
      Delegate no message. */
  lemma BuildersRoundTrip(attrs: Attributes, intentName: string, slots: Slots, slot: string,
                          text: string, card: ResponseCard, state: string)
    ensures var r := BuildElicitSlot(attrs, intentName, slots, slot, PlainText(text));
      r.sessionAttributes == attrs && SlotsOf(r) == Some(slots) && ContentOf(r) == Some(text)
      && r.dialogAction.ElicitSlot? && r.dialogAction.intentName == intentName
      && r.dialogAction.slotToElicit == slot && r.dialogAction.responseCard.None?
    ensures var r := BuildElicitSlotWithCard(attrs, intentName, slots, slot, text, card);
      r.sessionAttributes == attrs && SlotsOf(r) == Some(slots) && ContentOf(r) == Some(text)
      && r.dialogAction.ElicitSlot? && r.dialogAction.intentName == intentName
      && r.dialogAction.slotToElicit == slot && r.dialogAction.responseCard == Some(card)
    ensures var r := BuildConfirmIntent(attrs, intentName, slots, PlainText(text));
      r.sessionAttributes == attrs && SlotsOf(r) == Some(slots) && ContentOf(r) == Some(text)
      && r.dialogAction.ConfirmIntent? && r.dialogAction.intentName == intentName
    ensures var r := BuildClose(attrs, state, PlainText(text));
      r.sessionAttributes == attrs && SlotsOf(r) == None && ContentOf(r) == Some(text)
      && r.dialogAction.Close? && r.dialogAction.fulfillmentState == state
    ensures var r := BuildDelegate(attrs, slots);
      r.sessionAttributes == attrs && SlotsOf(r) == Some(slots) && ContentOf(r) == None
  {
  }

  /** Python's `xs[i]` for an index already known to be in range, counting
      from the end when negative. */
  function PyIndex(xs: seq<string>, i: int): string
    requires -|xs| <= i < |xs|
  {
    if i < 0 then xs[|xs| + i] else xs[i]
  }

  /** One button per option, each showing and sending the option itself. */
  function OptionButtons(options: seq<string>): (buttons: seq<Button>)
    ensures |buttons| == |options|
    ensures forall k :: 0 <= k < |options| ==> buttons[k].text == options[k] && buttons[k].value == options[k]
  {
    seq(|options|, k requires 0 <= k < |options| => Button(options[k], options[k]))
  }

  /** One button per option from position `startFrom` on, each showing and
      sending the option itself. A negative start counts from the end of the
      list, and a start before its beginning fails as an index error. */
  method BuildOptions(options: seq<string>, startFrom: int) returns (r: Result<seq<Button>, string>)
    ensures r.Failure? <==> startFrom < -|options|
    ensures r.Success? ==> |r.value| == (if startFrom < |options| then |options| - startFrom else 0)
    ensures r.Success? ==> forall k :: 0 <= k < |r.value| ==>
      -|options| <= startFrom + k < |options| &&
      r.value[k] == Button(PyIndex(options, startFrom + k), PyIndex(options, startFrom + k))
    ensures 0 <= startFrom <= |options| ==> r == Success(OptionButtons(options[startFrom..]))
  {
    var buttons: seq<Button> := [];
    var i := startFrom;
    while i < |options|
      invariant startFrom <= i
      invariant i <= |options| || i == startFrom
      invariant |buttons| == i - startFrom
      invariant i > startFrom ==> -|options| <= startFrom
      invariant forall k :: 0 <= k < |buttons| ==>
        -|options| <= startFrom + k < |options| &&
        buttons[k] == Button(PyIndex(options, startFrom + k), PyIndex(options, startFrom + k))
      decreases |options| - i
    {
      if i < -|options| {
        return Failure("list index out of range");
      }
      var option := PyIndex(options, i);
      buttons := buttons + [Button(option, option)];
      i := i + 1;
    }
    if 0 <= startFrom <= |options| {
      var expected := OptionButtons(options[startFrom..]);
      assert |buttons| == |expected|;
      assert forall k :: 0 <= k < |buttons| ==> buttons[k] == expected[k];
      assert buttons == expected;
    }
    r := Success(buttons);
  }

  /** The generic card with a single attachment whose buttons offer the
      options in order. */
  function BuildResponseCard(title: string, subTitle: string, options: seq<string>): (c: ResponseCard)
    ensures c.contentType == GenericCardType && c.version == 1 && |c.attachments| == 1
    ensures c.attachments[0].title == title && c.attachments[0].subTitle == subTitle
    ensures |c.attachments[0].buttons| == |options|
    ensures forall k :: 0 <= k < |options| ==> c.attachments[0].buttons[k] == Button(options[k], options[k])
  {
    ResponseCard(GenericCardType, 1, [Attachment(title, subTitle, OptionButtons(options))])
  }

  /** The values a card's buttons send back, in order. */
  function CardValues(c: ResponseCard): seq<string> {
    if |c.attachments| == 0 then []
    else seq(|c.attachments[0].buttons|, k requires 0 <= k < |c.attachments[0].buttons| =>
               c.attachments[0].buttons[k].value)
  }

  /** Reading the button values back off a built card yields the options. */
  lemma CardValuesRoundTrip(title: string, subTitle: string, options: seq<string>)
    ensures CardValues(BuildResponseCard(title, subTitle, options)) == options
  {
  }
}

=== FILE: router.dfy ===
/** Routes a turn to the handler of its intent. */
module Router {
  import opened Wrappers
  import opened Dialog
  import opened Handlers

  const KnownIntents: set<string> := {"Testing", "CancelRequest", "Thanks", "RateSession", "ProvideFeedback"}

  /** `dispatch`: exactly the five known intents reach a handler; any other
      name fails with an error naming it, and no handler runs. */
  function Dispatch(ev: TurnEvent, env: Env): (r: Result<Turn, TurnError>)
    ensures ev.intentName !in KnownIntents <==> r == Failure(UnknownIntent(ev.intentName))
    ensures r.Failure? && r.error.UnknownIntent? ==> ev.intentName !in KnownIntents
    ensures ev.intentName == "Testing" ==> r == Success(Testing(ev, env))
    ensures ev.intentName == "CancelRequest" ==> r == Success(CancelRequest(ev, env))
    ensures ev.intentName == "Thanks" ==> r == Success(Thanks(ev, env))
    ensures ev.intentName == "RateSession" ==> r == RateSession(ev, env)
    ensures ev.intentName == "ProvideFeedback" ==> r == ProvideFeedback(ev, env)
  {
    var name := ev.intentName;
    if name == "Testing" then Success(Testing(ev, env))
    else if name == "CancelRequest" then Success(CancelRequest(ev, env))
    else if name == "Thanks" then Success(Thanks(ev, env))
    else if name == "RateSession" then RateSession(ev, env)
    else if name == "ProvideFeedback" then ProvideFeedback(ev, env)
    else Failure(UnknownIntent(name))
  }
}

=== FILE: scenarios.dfy ===
/** Whole turns through the router on concrete slot values. The date text
    `date` stands for whatever the platform sends for today's date; the
    environment is only assumed to read it as today and to convert the score
    text as Python would. */
module Scenarios {
  import opened Wrappers
  import opened Text
  import opened Validators
  import opened Dialog
  import opened Validation
  import opened Responses
  import opened Handlers
  import opened Router

  /** The score message for 7. The expected text is written as the rendered
      score followed by the fixed suffix rather than as one literal, which
      keeps the string-equality proof within the solver's budget. */
  lemma ScoreSevenMessage()
    ensures MessageText(ScoreOutOfRange(7))
         == "7" + " is not a valid session score.  Please enter a score between 1 and 5"
  {
  }

  /** London, today and 7: the score is the first failing check. */
  lemma ScoreSevenInvalid(env: Env, date: string, slots: Slots)
    requires date != "" && env.parseDate(date) == Day(env.today)
    requires slots == map[SessionLocationSlot := Some("London"), SessionDateSlot := Some(date),
                          SessionScoreSlot := Some("7")]
    ensures ValidateRating(slots, Some(7), env.parseDate, env.today) == Invalid(SessionScoreSlot, ScoreOutOfRange(7))
  {
    LondonInAnyCase();
    assert SlotText(slots, SessionLocationSlot) == "London";
    assert SlotText(slots, SessionDateSlot) == date;
  }

  /** A rating of 7 is re-elicited with a message quoting the 7. The message
      is split as in `ScoreSevenMessage`, for the same reason. */
  lemma ScoreSevenReElicited(env: Env, date: string)
    requires date != "" && env.parseDate(date) == Day(env.today)
    requires env.toNumber("7") == Some(7)
    ensures var slots := map[SessionLocationSlot := Some("London"), SessionDateSlot := Some(date),
                             SessionScoreSlot := Some("7")];
      var r := Dispatch(TurnEvent("user", DialogCodeHook, None, "RateSession", slots), env);
      && r.Success?
      && r.value.response.dialogAction.ElicitSlot?
      && r.value.response.dialogAction.slotToElicit == SessionScoreSlot
      && r.value.response.dialogAction.message
         == PlainText("7" + " is not a valid session score.  Please enter a score between 1 and 5")
      && ClearsOnly(slots, r.value.response.dialogAction.slots, SessionScoreSlot)
      && Get(r.value.response.dialogAction.slots, SessionLocationSlot) == Some("London")
      && Get(r.value.response.dialogAction.slots, SessionDateSlot) == Some(date)
  {
    var slots := map[SessionLocationSlot := Some("London"), SessionDateSlot := Some(date),
                     SessionScoreSlot := Some("7")];
    var ev := TurnEvent("user", DialogCodeHook, None, "RateSession", slots);
    assert ScoreOf(slots, env.toNumber) == Success(Some(7));
    ScoreSevenInvalid(env, date, slots);
    ScoreSevenMessage();
    var r := Dispatch(ev, env);
    assert r == RateSession(ev, env);
    assert Get(slots, SessionLocationSlot) == Some("London");
    assert Get(slots, SessionDateSlot) == Some(date);
  }

  /** `title()` on the two slot values of the rating scenario. */
  lemma TitleExamples()
    ensures Title("london") == "London" && Title("abc") == "Abc"
  {
    assert TitleFrom("london", false) == "London";
    assert TitleFrom("abc", false) == "Abc";
  }

  /** A complete rating is written once to the stream with the location and
      id title-cased, and the dialog closes with the rating thanks. */
  lemma RatingFulfilled(env: Env, date: string)
    requires env.toNumber("4") == Some(4)
    requires env.streamAccepts
    ensures var slots := map[SessionIdSlot := Some("abc"), SessionLocationSlot := Some("london"),
                             SessionDateSlot := Some(date), SessionScoreSlot := Some("4")];
      var r := Dispatch(TurnEvent("user", FulfillmentCodeHook, None, "RateSession", slots), env);
      && r.Success?
      && r.value.written
         == Some(StreamWrite(PartitionKey, SessionRating("user", Some("London"), Some(date), Some(4), Some("Abc"))))
      && r.value.response.dialogAction == Close(Fulfilled, PlainText("Thank you for rating this session."))
  {
    var slots := map[SessionIdSlot := Some("abc"), SessionLocationSlot := Some("london"),
                     SessionDateSlot := Some(date), SessionScoreSlot := Some("4")];
    var ev := TurnEvent("user", FulfillmentCodeHook, None, "RateSession", slots);
    assert Get(slots, SessionScoreSlot) == Some("4");
    assert ScoreOf(slots, env.toNumber) == Success(Some(4));
    TitleExamples();
    assert Get(slots, SessionLocationSlot) == Some("london");
    assert Get(slots, SessionIdSlot) == Some("abc");
    assert Get(slots, SessionDateSlot) == Some(date);
    assert RatingDraft(ev, Some(4)) == SessionRating("user", Some("London"), Some(date), Some(4), Some("Abc"));
    assert Dispatch(ev, env) == RateSession(ev, env);
  }

  /** Two-character comments are flagged under the comments slot once the
      other three slots are in. */
  lemma ShortCommentsFlagged(env: Env, date: string)
    requires date != "" && env.parseDate(date) == Day(env.today)
    ensures var slots := map[SessionIdSlot := Some("abc"), SessionLocationSlot := Some("london"),
                             SessionDateSlot := Some(date), SessionCommentsSlot := Some("ok")];
      ValidateFeedback(slots, env.parseDate, env.today) == Invalid(SessionCommentsSlot, MissingComments)
  {
    LondonInAnyCase();
    var slots := map[SessionIdSlot := Some("abc"), SessionLocationSlot := Some("london"),
                     SessionDateSlot := Some(date), SessionCommentsSlot := Some("ok")];
    assert SlotText(slots, SessionLocationSlot) == "london";
    assert SlotText(slots, SessionIdSlot) == "abc";
    assert SlotText(slots, SessionDateSlot) == date;
  }

  /** An unknown intent fails naming itself. */
  lemma UnknownIntentFails(env: Env, ev: TurnEvent)
    requires ev.intentName == "Unknown"
    ensures Dispatch(ev, env) == Failure(UnknownIntent("Unknown"))
  {
  }
}

=== FILE: text.dfy ===
/** The string operations the bot applies to slot values: `str.lower()` for
    the location allow-list, `str.title()` for the records it emits, and
    decimal rendering of an integer for the score message. Case mapping is
    modelled for the ASCII letters only. */
module Text {
  import opened Wrappers

  predicate IsUpper(c: char) { 'A' <= c <= 'Z' }

  predicate IsLower(c: char) { 'a' <= c <= 'z' }

  /** A cased character in the sense of `str.title()`: a letter. */
  predicate IsCased(c: char) { IsUpper(c) || IsLower(c) }

  function LowerChar(c: char): (r: char)
    ensures IsCased(r) <==> IsCased(c)
    ensures !IsUpper(r)
  {
    if IsUpper(c) then (c as int + 32) as char else c
  }

  function UpperChar(c: char): (r: char)
    ensures IsCased(r) <==> IsCased(c)
    ensures !IsLower(r)
  {
    if IsLower(c) then (c as int - 32) as char else c
  }

  /** Re-casing a character never changes its lower-case form. */
  lemma LowerOfCased(c: char)
    ensures LowerChar(UpperChar(c)) == LowerChar(c)
    ensures LowerChar(LowerChar(c)) == LowerChar(c)
  {
  }

  /** `s.lower()`: every letter lower-cased, everything else kept. */
  function Lower(s: string): (r: string)
    ensures |r| == |s|
    ensures forall i :: 0 <= i < |s| ==> r[i] == LowerChar(s[i])
  {
    if s == [] then [] else [LowerChar(s[0])] + Lower(s[1..])
  }

  /** Title-casing of `s` when the character before it was (`afterCased`) or
      was not a cased character: a letter is upper-cased when it starts a run
      of letters and lower-cased inside one. */
  function TitleFrom(s: string, afterCased: bool): (r: string)
    ensures |r| == |s|
    ensures |s| > 0 ==> r[0] == (if afterCased then LowerChar(s[0]) else UpperChar(s[0]))
    ensures forall i :: 0 < i < |s| ==>
      r[i] == (if IsCased(s[i - 1]) then LowerChar(s[i]) else UpperChar(s[i]))
  {
    if s == [] then []
    else
      var c := if afterCased then LowerChar(s[0]) else UpperChar(s[0]);
      [c] + TitleFrom(s[1..], IsCased(s[0]))
  }

  /** `s.title()`. */
  function Title(s: string): (r: string)
    ensures |r| == |s|
    ensures Lower(r) == Lower(s)
  {
    var r := TitleFrom(s, false);
    assert forall i :: 0 <= i < |s| ==> LowerChar(r[i]) == LowerChar(s[i]) by {
      forall i | 0 <= i < |s|
        ensures LowerChar(r[i]) == LowerChar(s[i])
      {
        LowerOfCased(s[i]);
        if i > 0 {
          assert r[i] == (if IsCased(s[i - 1]) then LowerChar(s[i]) else UpperChar(s[i]));
        }
      }
    }
    r
  }

  predicate IsDigit(c: char) { '0' <= c <= '9' }

  predicate AllDigits(s: string) { forall i :: 0 <= i < |s| ==> IsDigit(s[i]) }

  function DigitChar(d: int): (c: char)
    requires 0 <= d < 10
    ensures IsDigit(c)
  {
    ('0' as int + d) as char
  }

  /** The decimal digits of `n`, most significant first, no leading zero. */
  function NatDigits(n: nat): (r: string)
    ensures |r| > 0 && AllDigits(r)
    ensures |r| > 1 ==> r[0] != '0'
    decreases n
  {
    if n < 10 then [DigitChar(n)] else NatDigits(n / 10) + [DigitChar(n % 10)]
  }

  /** `str(n)` for a Python int: an optional minus sign, then the digits. */
  function Decimal(n: int): (r: string)
    ensures |r| > 0
    ensures r[0] == '-' <==> n < 0
    ensures n < 0 ==> |r| > 1 && AllDigits(r[1..]) && (|r| > 2 ==> r[1] != '0')
    ensures n >= 0 ==> AllDigits(r)
  {
    if n < 0 then "-" + NatDigits(-n) else NatDigits(n)
  }

  function ParseDigits(s: string): nat
    requires AllDigits(s)
  {
    if s == [] then 0 else ParseDigits(s[..|s| - 1]) * 10 + (s[|s| - 1] as int - '0' as int)
  }

  /** Reads back a string produced by `Decimal`. */
  function ParseDecimal(s: string): Option<int> {
    if |s| > 1 && s[0] == '-' && AllDigits(s[1..]) then Some(-(ParseDigits(s[1..]) as int))
    else if |s| > 0 && AllDigits(s) then Some(ParseDigits(s))
    else None
  }

  lemma {:induction false} NatDigitsRoundTrip(n: nat)
    ensures ParseDigits(NatDigits(n)) == n
    decreases n
  {
    if n >= 10 {
      var front := NatDigits(n / 10);
      var s := front + [DigitChar(n % 10)];
      assert s[..|s| - 1] == front;
      NatDigitsRoundTrip(n / 10);
    }
  }

  /** The score message names the score unambiguously: its decimal rendering
      reads back as the same integer. */
  lemma DecimalRoundTrip(n: int)
    ensures ParseDecimal(Decimal(n)) == Some(n)
  {
    if n < 0 {
      var s := Decimal(n);
      assert s[1..] == NatDigits(-n);
      NatDigitsRoundTrip(-n);
    } else {
      NatDigitsRoundTrip(n);
    }
  }
}

=== FILE: validation.dfy ===
/** The three rule chains. Each applies its checks in a fixed order and
    reports the first one that fails; a slot that is not filled passes its
    check, so a chain can run on every turn while the slots fill in. The
    exception is the comments, which the feedback chain requires once id,
    location and date are in. */
module Validation {
  import opened Wrappers
  import opened Text
  import opened Validators
  import opened Dialog

  datatype ValidationResult = Valid | Invalid(violatedSlot: string, reason: Reason)

  /** One step of a chain: whether it fails, and what it reports if so. */
  datatype Check = Check(fails: bool, slot: string, reason: Reason)

  /** Check `i` fails and every check before it passes. */
  predicate IsFirstFailure(checks: seq<Check>, i: int) {
    0 <= i < |checks| && checks[i].fails && forall j :: 0 <= j < i ==> !checks[j].fails
  }

  /** The reference reading of a chain: the first failing check, if any. */
  function FirstFailure(checks: seq<Check>): (r: ValidationResult)
    ensures r == Valid <==> forall i :: 0 <= i < |checks| ==> !checks[i].fails
    ensures r != Valid ==>
      exists i :: IsFirstFailure(checks, i) && r == Invalid(checks[i].slot, checks[i].reason)
  {
    if checks == [] then Valid
    else if checks[0].fails then Invalid(checks[0].slot, checks[0].reason)
    else
      var r := FirstFailure(checks[1..]);
      assert r != Valid ==>
        exists i :: IsFirstFailure(checks, i) && r == Invalid(checks[i].slot, checks[i].reason) by {
        if r != Valid {
          var i :| IsFirstFailure(checks[1..], i) && r == Invalid(checks[1..][i].slot, checks[1..][i].reason);
          assert forall j :: 0 <= j < i + 1 ==> !checks[j].fails by {
            forall j | 0 <= j < i + 1 ensures !checks[j].fails {
              if j > 0 { assert checks[j] == checks[1..][j - 1]; }
            }
          }
          assert IsFirstFailure(checks, i + 1);
        }
      }
      r
  }

  /** The failing check that comes first is the one reported. */
  lemma FirstFailureIsFirst(checks: seq<Check>, i: int)
    requires 0 <= i < |checks| && checks[i].fails
    requires forall j :: 0 <= j < i ==> !checks[j].fails
    ensures FirstFailure(checks) == Invalid(checks[i].slot, checks[i].reason)
  {
  }

  /** Why a check failed; `MessageText` renders it for the user. */
  datatype Reason =
    | UnknownLocation(location: string)
    | UnreadableDate(date: string)
    | ScoreOutOfRange(score: int)
    | FutureDate(date: string)
    | RatingTooOld(date: string)
    | FeedbackTooOld(date: string)
    | MissingComments
    | UnknownTestTarget(target: string)

  /** The user-facing text of each rejection. */
  function MessageText(reason: Reason): string {
    match reason
    case UnknownLocation(location) =>
      location + " is not a valid session location.  Which City did this event take place in?  Please can you try a different location?"
    case UnreadableDate(date) =>
      date + " isn't a valid date.  Please enter a date in day month year format, or month day year format if you prefer."
    case ScoreOutOfRange(score) =>
      Decimal(score) + " is not a valid session score.  Please enter a score between 1 and 5"
    case FutureDate(date) =>
      date + " is in the future.  Please enter a date in the past, or today's date"
    case RatingTooOld(date) =>
      date + " is more than 30 days ago and I only record for sessions in the last 30 days.  Please enter a more recent date or leave a rating more promptly next time."
    case FeedbackTooOld(date) =>
      date + " is more than 30 days ago and I only record feedback for sessions in the last 30 days.  Please enter a more recent date or leave your feedback more promptly next time."
    case MissingComments =>
      "I didn't get your feedback. What did you think of the session?"
    case UnknownTestTarget(target) =>
      target + " is not a valid test target.  Try A, B or C?"
  }

  /** The rejected value as the message prints it; empty when the message
      quotes nothing. */
  function Quoted(reason: Reason): string {
    match reason
    case UnknownLocation(location) => location
    case UnreadableDate(date) => date
    case ScoreOutOfRange(score) => Decimal(score)
    case FutureDate(date) => date
    case RatingTooOld(date) => date
    case FeedbackTooOld(date) => date
    case MissingComments => ""
    case UnknownTestTarget(target) => target
  }

  /** Every message opens with the value it rejects, verbatim. */
  lemma MessageQuotesValue(reason: Reason)
    ensures Quoted(reason) <= MessageText(reason)
  {
  }

  /** The date slot read as a date: None when not filled. */
  function DateOf(slots: Slots, parse: string -> ParsedDate): Option<ParsedDate> {
    if Filled(slots, SessionDateSlot) then Some(parse(SlotText(slots, SessionDateSlot))) else None
  }

  predicate LocationOk(slots: Slots) {
    !Filled(slots, SessionLocationSlot) || IsValidLocation(SlotText(slots, SessionLocationSlot))
  }

  /** Not filled, or a readable day that is neither in the future nor 30 or
      more days ago. */
  predicate DateOk(slots: Slots, parse: string -> ParsedDate, today: int) {
    match DateOf(slots, parse)
    case None => true
    case Some(Unparseable) => false
    case Some(Day(d)) => !IsFutureDate(d, today) && WithinThirtyDays(d, today)
  }

  predicate ScoreOk(score: Option<int>) {
    score.None? || IsValidScore(score.value)
  }

  predicate CommentsDue(slots: Slots) {
    Filled(slots, SessionIdSlot) && Filled(slots, SessionLocationSlot) && Filled(slots, SessionDateSlot)
  }

  /** The rating chain as a list: location, date readability, score, future
      date, 30-day window. */
  function RatingChecks(slots: Slots, score: Option<int>, parse: string -> ParsedDate, today: int): seq<Check> {
    var location := SlotText(slots, SessionLocationSlot);
    var text := SlotText(slots, SessionDateSlot);
    var date := DateOf(slots, parse);
    [ Check(location != "" && !IsValidLocation(location), SessionLocationSlot, UnknownLocation(location)),
      Check(date == Some(Unparseable), SessionDateSlot, UnreadableDate(text)),
      Check(score.Some? && !IsValidScore(score.value), SessionScoreSlot,
            ScoreOutOfRange(if score.Some? then score.value else 0)),
      Check(date.Some? && date.value.Day? && IsFutureDate(date.value.day, today), SessionDateSlot,
            FutureDate(text)),
      Check(date.Some? && date.value.Day? && !WithinThirtyDays(date.value.day, today), SessionDateSlot,
            RatingTooOld(text)) ]
  }

  /** `validate_rating`, with the score already converted to an integer. */
  function ValidateRating(slots: Slots, score: Option<int>, parse: string -> ParsedDate, today: int): (r: ValidationResult)
    ensures r == Valid <==> LocationOk(slots) && DateOk(slots, parse, today) && ScoreOk(score)
    ensures r.Invalid? ==> r.violatedSlot in {SessionLocationSlot, SessionDateSlot, SessionScoreSlot}
    ensures r.Invalid? && r.violatedSlot == SessionScoreSlot ==> score.Some? && !IsValidScore(score.value)
    ensures r.Invalid? && r.violatedSlot != SessionScoreSlot ==> Filled(slots, r.violatedSlot)
  {
    var location := SlotText(slots, SessionLocationSlot);
    var date := SlotText(slots, SessionDateSlot);
    if location != "" && !IsValidLocation(location) then
      Invalid(SessionLocationSlot, UnknownLocation(location))
    else if date != "" && !IsValidDate(parse(date)) then
      Invalid(SessionDateSlot, UnreadableDate(date))
    else if score.Some? && !IsValidScore(score.value) then
      Invalid(SessionScoreSlot, ScoreOutOfRange(score.value))
    else if date != "" && IsFutureDate(parse(date).day, today) then
      Invalid(SessionDateSlot, FutureDate(date))
    else if date != "" && !WithinThirtyDays(parse(date).day, today) then
      Invalid(SessionDateSlot, RatingTooOld(date))
    else
      Valid
  }

  /** The nested conditions of `ValidateRating` are the rating checks read
      in order, first failure reported. */
  lemma RatingChainIsFirstFailure(slots: Slots, score: Option<int>, parse: string -> ParsedDate, today: int)
    ensures ValidateRating(slots, score, parse, today) == FirstFailure(RatingChecks(slots, score, parse, today))
  {
    var cs := RatingChecks(slots, score, parse, today);
    if cs[0].fails {
      FirstFailureIsFirst(cs, 0);
    } else if cs[1].fails {
      FirstFailureIsFirst(cs, 1);
    } else if cs[2].fails {
      FirstFailureIsFirst(cs, 2);
    } else if cs[3].fails {
      FirstFailureIsFirst(cs, 3);
    } else if cs[4].fails {
      FirstFailureIsFirst(cs, 4);
    }
  }

  /** A rating rejection quotes the text of the slot it rejects (the score
      as printed), and that text is not empty. */
  lemma RatingQuotesRejectedSlot(slots: Slots, score: Option<int>, parse: string -> ParsedDate, today: int)
    requires ValidateRating(slots, score, parse, today).Invalid?
    ensures var r := ValidateRating(slots, score, parse, today);
      && Quoted(r.reason) != ""
      && Quoted(r.reason) <= MessageText(r.reason)
      && (r.violatedSlot == SessionScoreSlot ==> Quoted(r.reason) == Decimal(score.value))
      && (r.violatedSlot != SessionScoreSlot ==> Quoted(r.reason) == SlotText(slots, r.violatedSlot))
  {
    MessageQuotesValue(ValidateRating(slots, score, parse, today).reason);
  }

  /** The feedback chain as a list: location, date readability, future date,
      30-day window, and last the comments, once the session id, location and
      date are all filled. */
  function FeedbackChecks(slots: Slots, parse: string -> ParsedDate, today: int): seq<Check> {
    var location := SlotText(slots, SessionLocationSlot);
    var text := SlotText(slots, SessionDateSlot);
    var date := DateOf(slots, parse);
    [ Check(location != "" && !IsValidLocation(location), SessionLocationSlot, UnknownLocation(location)),
      Check(date == Some(Unparseable), SessionDateSlot, UnreadableDate(text)),
      Check(date.Some? && date.value.Day? && IsFutureDate(date.value.day, today), SessionDateSlot,
            FutureDate(text)),
      Check(date.Some? && date.value.Day? && !WithinThirtyDays(date.value.day, today), SessionDateSlot,
            FeedbackTooOld(text)),
      Check(CommentsDue(slots) && !IsValidComments(Get(slots, SessionCommentsSlot)), SessionCommentsSlot,
            MissingComments) ]
  }

  /** `validate_feedback`. */
  function ValidateFeedback(slots: Slots, parse: string -> ParsedDate, today: int): (r: ValidationResult)
    ensures r == Valid <==>
      LocationOk(slots) && DateOk(slots, parse, today)
      && (CommentsDue(slots) ==> IsValidComments(Get(slots, SessionCommentsSlot)))
    ensures r.Invalid? ==> r.violatedSlot in {SessionLocationSlot, SessionDateSlot, SessionCommentsSlot}
    ensures r.Invalid? && r.violatedSlot != SessionCommentsSlot ==> Filled(slots, r.violatedSlot)
    ensures (r.Invalid? && r.violatedSlot == SessionCommentsSlot) <==>
      LocationOk(slots) && DateOk(slots, parse, today) && CommentsDue(slots)
      && !IsValidComments(Get(slots, SessionCommentsSlot))
  {
    var sessionId := SlotText(slots, SessionIdSlot);
    var location := SlotText(slots, SessionLocationSlot);
    var date := SlotText(slots, SessionDateSlot);
    if location != "" && !IsValidLocation(location) then
      Invalid(SessionLocationSlot, UnknownLocation(location))
    else if date != "" && !IsValidDate(parse(date)) then
      Invalid(SessionDateSlot, UnreadableDate(date))
    else if date != "" && IsFutureDate(parse(date).day, today) then
      Invalid(SessionDateSlot, FutureDate(date))
    else if date != "" && !WithinThirtyDays(parse(date).day, today) then
      Invalid(SessionDateSlot, FeedbackTooOld(date))
    else if (sessionId != "" && location != "" && date != "")
            && !IsValidComments(Get(slots, SessionCommentsSlot)) then
      Invalid(SessionCommentsSlot, MissingComments)
    else
      Valid
  }

  lemma FeedbackChainIsFirstFailure(slots: Slots, parse: string -> ParsedDate, today: int)
    ensures ValidateFeedback(slots, parse, today) == FirstFailure(FeedbackChecks(slots, parse, today))
  {
    var cs := FeedbackChecks(slots, parse, today);
    if cs[0].fails {
      FirstFailureIsFirst(cs, 0);
    } else if cs[1].fails {
      FirstFailureIsFirst(cs, 1);
    } else if cs[2].fails {
      FirstFailureIsFirst(cs, 2);
    } else if cs[3].fails {
      FirstFailureIsFirst(cs, 3);
    } else if cs[4].fails {
      FirstFailureIsFirst(cs, 4);
    }
  }

  /** `validate_testing`: a filled target must be one of A, B, C. */
  function ValidateTesting(slots: Slots): (r: ValidationResult)
    ensures r == Valid <==> !Filled(slots, TestTargetSlot) || IsValidTestTarget(SlotText(slots, TestTargetSlot))
    ensures r.Invalid? ==>
      r.violatedSlot == TestTargetSlot && Filled(slots, TestTargetSlot)
      && Quoted(r.reason) == SlotText(slots, TestTargetSlot)
  {
    var target := SlotText(slots, TestTargetSlot);
    if target != "" && target !in TestTargets then
      Invalid(TestTargetSlot, UnknownTestTarget(target))
    else
      Valid
  }

  /** The test chain's single check. */
  function TestingChecks(slots: Slots): seq<Check> {
    var target := SlotText(slots, TestTargetSlot);
    [ Check(target != "" && !IsValidTestTarget(target), TestTargetSlot, UnknownTestTarget(target)) ]
  }

  lemma TestingChainIsFirstFailure(slots: Slots)
    ensures ValidateTesting(slots) == FirstFailure(TestingChecks(slots))
  {
  }

  /** A chain whose own slots are all unfilled passes, so a turn that has
      collected nothing yet is handed back to the platform: location and date
      for the rating and feedback chains, the target for the test chain. */
  lemma NothingFilledIsValid(slots: Slots, parse: string -> ParsedDate, today: int)
    ensures !Filled(slots, SessionLocationSlot) && !Filled(slots, SessionDateSlot) ==>
      ValidateRating(slots, None, parse, today) == Valid
    ensures !Filled(slots, SessionLocationSlot) && !Filled(slots, SessionDateSlot) ==>
      ValidateFeedback(slots, parse, today) == Valid
    ensures !Filled(slots, TestTargetSlot) ==> ValidateTesting(slots) == Valid
  {
  }

  /** A score of 0 is checked like any other: once location and date
      readability pass, it is the reported failure. */
  lemma ZeroScoreRejected(slots: Slots, parse: string -> ParsedDate, today: int)
    requires LocationOk(slots) && DateOf(slots, parse) != Some(Unparseable)
    ensures ValidateRating(slots, Some(0), parse, today) == Invalid(SessionScoreSlot, ScoreOutOfRange(0))
  {
  }

  /** A date 30 or more days before today is rejected by both chains with
      their own wording, provided nothing earlier in the chain fails. */
  lemma StaleDateRejected(slots: Slots, score: Option<int>, parse: string -> ParsedDate, today: int, day: int)
    requires LocationOk(slots)
    requires Filled(slots, SessionDateSlot) && parse(SlotText(slots, SessionDateSlot)) == Day(day)
    requires day <= today - WindowDays
    ensures ScoreOk(score) ==>
      ValidateRating(slots, score, parse, today) == Invalid(SessionDateSlot, RatingTooOld(SlotText(slots, SessionDateSlot)))
    ensures ValidateFeedback(slots, parse, today)
         == Invalid(SessionDateSlot, FeedbackTooOld(SlotText(slots, SessionDateSlot)))
  {
  }

  /** A date after today is rejected as being in the future, never as too
      old. */
  lemma FutureDateRejected(slots: Slots, score: Option<int>, parse: string -> ParsedDate, today: int, day: int)
    requires LocationOk(slots)
    requires Filled(slots, SessionDateSlot) && parse(SlotText(slots, SessionDateSlot)) == Day(day)
    requires day > today
    ensures ScoreOk(score) ==>
      ValidateRating(slots, score, parse, today) == Invalid(SessionDateSlot, FutureDate(SlotText(slots, SessionDateSlot)))
    ensures ValidateFeedback(slots, parse, today)
         == Invalid(SessionDateSlot, FutureDate(SlotText(slots, SessionDateSlot)))
  {
  }
}

=== FILE: validators.dfy ===
/** The single-value checks the rule chains are built from. A date has
    already been read into a day number (or found unreadable) and "today" is
    a day number supplied by the caller. */
module Validators {
  import opened Wrappers
  import opened Text

  /** The cities a session may have taken place in, in lower case. */
  const Cities: seq<string> := [
    "london", "leeds", "manchester", "tel aviv", "new york", "san francisco",
    "seattle", "stockholm", "dublin", "helsinki", "singapore", "dummy"]

  /** The targets the test flow accepts; compared case-sensitively. */
  const TestTargets: seq<string> := ["A", "B", "C"]

  /** How many days back a session may be rated or commented on. */
  const WindowDays: int := 30

  /** The outcome of reading a date string (`dateutil.parser.parse`). */
  datatype ParsedDate = Unparseable | Day(day: int)

  predicate IsValidLocation(location: string) {
    Lower(location) in Cities
  }

  predicate IsValidScore(score: int) {
    1 <= score && score <= 5
  }

  predicate IsValidDate(parsed: ParsedDate) {
    parsed.Day?
  }

  predicate IsFutureDate(day: int, today: int) {
    day > today
  }

  predicate WithinThirtyDays(day: int, today: int) {
    day > today - WindowDays
  }

  /** Present and longer than four characters. */
  predicate IsValidComments(comments: Option<string>) {
    comments.Some? && |comments.value| > 4
  }

  predicate IsValidTestTarget(target: string) {
    target in TestTargets
  }

  /** Location validity depends only on the lower-case form of the text. */
  lemma LocationIgnoresCase(a: string, b: string)
    requires Lower(a) == Lower(b)
    ensures IsValidLocation(a) <==> IsValidLocation(b)
  {
  }

  /** Lower-casing a literal, one character at a time. */
  lemma LowerIs(s: string, t: string)
    requires |s| == |t|
    requires forall i :: 0 <= i < |s| ==> LowerChar(s[i]) == t[i]
    ensures Lower(s) == t
  {
  }

  /** Upper, title and lower case spellings of a city are all accepted. */
  lemma LondonInAnyCase()
    ensures IsValidLocation("LONDON") && IsValidLocation("London") && IsValidLocation("london")
  {
    LowerIs("LONDON", "london");
    LowerIs("London", "london");
    LowerIs("london", "london");
  }

  lemma ParisRejected()
    ensures !IsValidLocation("Paris")
  {
  }

  /** Comments of four characters or fewer, or none at all, are rejected. */
  lemma CommentsNeedFiveCharacters(comments: string)
    ensures !IsValidComments(None)
    ensures IsValidComments(Some(comments)) <==> |comments| >= 5
    ensures !IsValidComments(Some("ok")) && !IsValidComments(Some("good")) && IsValidComments(Some("great"))
  {
  }

  /** Unlike the location, the test target is not case-folded. */
  lemma TestTargetIsCaseSensitive()
    ensures IsValidTestTarget("A") && IsValidTestTarget("B") && IsValidTestTarget("C")
    ensures !IsValidTestTarget("a") && !IsValidTestTarget("D") && !IsValidTestTarget("")
  {
  }

  /** The window excludes its boundary: a date exactly 30 days ago fails. */
  lemma ThirtyDayBoundary(today: int)
    ensures !WithinThirtyDays(today - 30, today)
    ensures WithinThirtyDays(today - 29, today)
    ensures forall day :: WithinThirtyDays(day, today) && !IsFutureDate(day, today) <==> today - 30 < day <= today
  {
  }
}

=== FILE: wrappers.dfy ===
/** An optional value (Python's None versus a value) and a value-or-error,
    the outcome of a turn that may raise. */
module Wrappers {

  /** A value that may be absent; None plays the part of Python's None. */
  datatype Option<+T> = None | Some(value: T)

  /** Either a value or the error that ended the computation. */
  datatype Result<+T, +E> = Success(value: T) | Failure(error: E)
}
